=== FILE: README.md ===
# Haunted Room — a Dafny model of the game loop

Haunted Room is a single-room arcade game. The player walks around with the
arrow keys and collects gems for a short speed boost. Four kinds of enemies
roam the room, and any contact ends the run. Once every gem is collected, the
exit strip on the right edge leads to the next level, which has one more
enemy. This project models the deterministic decision logic of one update
tick as pure functions over immutable records and proves properties of them.
The modelled logic is:

- animation selection and frame stepping;
- the player's move with its boost timer;
- the bouncing enemies (Bat, Wraith1), the pursuer (Wraith2) and the
  walk-and-taunt enemy (Wraith3);
- collision resolution, the high score and level progression;
- the menu / playing / game-over / instructions modes.

Files and modules:

| file | module | contents |
|---|---|---|
| `outcomes.dfy` | `Outcomes` | `Option`, and a `Result` whose failure says why the program stopped (a missing sprite set, or the quit button) |
| `geometry.dfy` | `Geometry` | field size, integer rectangles, truncating sub-pixel steps, collision test, exit strip |
| `animation.dfy` | `Animation` | sprite key fallback, frame advance |
| `characters.dfy` | `Characters` | the shared character record, its construction and animation tick |
| `player.dfy` | `PlayerControl` | boost, key priority, edge guards, the player tick |
| `enemies.dfy` | `Enemies` | the four enemy behaviours and their construction |
| `session.dfy` | `Session` | world state, score file, spawning, collisions, update tick, menu clicks |

Modelling choices:

- **Integer rectangles and sub-pixel speeds.** Rectangles have integer
  coordinates. The game adds float speeds to them (2, 3.5, 0.95, ...), and the
  rectangle library turns the float sum back into an integer by truncating
  toward zero. Speeds and velocities are therefore integers in hundredths of a
  pixel, and `Geometry.Shift` performs that truncating addition exactly.
- **Collision test.** The collision test is the library's: the open interiors
  must intersect. Rectangles that only touch along an edge do not collide, and
  an empty rectangle collides with nothing.
- **Player edge guards.** The code does not clamp the player at the screen
  edge. It only refuses a move once the box is at that edge, so a single step
  can overshoot by less than one step (`PlayerControl.PlayerStaysNearField`).
- **Boost size.** The boost adds 1.5 pixels per tick to the base 2; it is not
  a multiple of the base speed.
- **Collision pass after a contact.** The collision pass goes on after an
  enemy contact, so gems still count and the level can still advance on the
  tick the run ends.
- **Inputs to a tick.** Random draws, key states, menu clicks and Wraith2's
  floating-point displacement are passed in as arguments. Preconditions give
  the ranges the random calls produce.
- **Score file.** The score file is the world field `stored`, which is `None`
  when the file is missing or not an integer.
- **Construction failures.** A character whose sprite folder has no initial
  animation makes its constructor raise. That is modelled as
  `Fail(MissingSprites(folder))`, and it propagates through spawning, reset,
  level-up and the tick.

## Model

| member | source | states |
|---|---|---|
| `Geometry.Truncate` | main.py:206-207 | a float sum stored into a rectangle coordinate is its integer part toward zero: the result times 100 lies within one pixel of the sum on the side of zero |
| `Geometry.Centered` | main.py:120-121 | assigning a centre keeps the size, and the box then reports exactly that centre |
| `Geometry.SubPixelForwardStepIsLost` | main.py:206-207 | on the non-negative side, a forward step of less than one pixel leaves the coordinate unchanged |
| `Animation.FirstUsable` | main.py:132-136 | the index found holds a present, non-empty list, and every earlier key is missing or empty; None means no key from the start position on is usable |
| `Animation.Select` | main.py:132-136 | the result is None exactly when every candidate key is missing or empty; otherwise it is the non-empty list of the first usable candidate |
| `Animation.SelectFirst` | main.py:132-135 | whenever key i is usable and all earlier keys are not, key i's list is the one returned |
| `Animation.PickSpritesFallback` | main.py:127-136 | when moving, the fallback order is state_direction, direction, state, "move", "walking"; when still, it is idle_direction, "idle", direction, "down"; None means every candidate failed |
| `Animation.Advance` | main.py:138-146 | the counter restarts exactly when a list was found and the incremented counter reached the speed; the frame then becomes (old+1) mod the length, stays in range, and the image is that frame; otherwise only the counter grows by one |
| `Animation.CounterClimbs` | main.py:140-143 | below the threshold, n ticks only add n to the counter |
| `Animation.OneFramePerCycle` | main.py:138-146 | from a fresh counter and with a stable list, exactly `speed` ticks advance the frame by one, modulo the list length |
| `Animation.NoSpritesFreezesFrame` | main.py:141-146 | with no usable list, the frame and image never change, however many ticks pass |
| `Characters.MakeCharacter` | main.py:73-121 | construction fails exactly when none of idle_right, idle, right, move is usable, and names the folder; otherwise the character faces right, is idle and still, has frame 0, shows the first image of the first usable key, and has a 0.6-scaled box centred on the given point |
| `Characters.UpdateAnimation` | main.py:138-146 | an animation tick takes exactly one `Advance` step with the list `_pick_sprites` selects for the current movement, state and facing, and changes nothing else |
| `Characters.KeyChangeKeepsProgress` | main.py:138-146 | changing state, direction or movement never resets the animation: the counter evolves identically, and the frame stays or moves on by one in the new list |
| `PlayerControl.NewPlayer` | main.py:155-160 | a new player is the hero character as `Characters.MakeCharacter` builds it (0.6-scaled box centred on the given point, the hero's animations, facing right, idle), with speed 2, no boost and animation speed 5; construction fails exactly when the hero folder has none of the initial animations |
| `PlayerControl.ApplyBoost` | main.py:162-165 | a pickup sets, not adds, a 1.5 boost and restarts the 120-tick timer; the body and base speed are untouched |
| `PlayerControl.Countdown` | main.py:169-172 | a positive timer drops by one and never below zero; the boost is cleared exactly on the tick the timer goes from 1 to 0 |
| `PlayerControl.CountdownRuns` | main.py:169-172 | a boost of t ticks stays in force for n < t countdown ticks, with t-n left; from the t-th tick on, boost and timer are both 0 |
| `PlayerControl.BoostLasts` | main.py:162-175 | after a pickup, the next 119 moves use the boost and every move from the 120th on does not |
| `PlayerControl.ChosenDir` | main.py:177-192 | the direction chosen is pressed and unblocked, and no higher-priority direction (up > down > left > right) is; None exactly when no pressed key is unblocked, so a blocked key falls through |
| `PlayerControl.Move` | main.py:167-195 | the boost counts down first; the player moves iff some pressed key's edge guard holds; it moves only along the chosen direction, by speed + boost with truncation; at most one axis changes; direction and box change only on a move; the state is walking iff moving; the animation advances with the new selection |
| `PlayerControl.PlayerStaysNearField` | main.py:177-192 | the guards are checked before the step, so a player within m pixels of the field stays within m pixels when its step is at most m pixels |
| `Enemies.AxisStep` | main.py:206-214 | on one axis the position advances by the velocity; the velocity is reversed iff the new box touches or passes either edge; its magnitude never changes |
| `Enemies.Bounce` | main.py:205-214 | both axes step independently; the facing comes from the sign of vx before any reversal (right only when vx > 0) |
| `Enemies.BouncerMove` | main.py:205-218 | one Bat tick (Wraith1 at main.py:228-241 is the same): the box moves by (vx, vy); each component is negated iff the new box is at that axis's edge; magnitudes are kept; always walking and moving |
| `Enemies.Wraith2Move` | main.py:249-264 | the pursuer moves and attacks iff its corner is more than 5 pixels from the player's (dx²+dy² > 25); otherwise it idles with its box unchanged; it faces right iff the player is to its right |
| `Enemies.Wraith2Threshold` | main.py:252-261 | at distance 5 the pursuer stays idle and still; at distance 6 it attacks |
| `Enemies.Wraith3Move` | main.py:277-304 | the timer counts every tick; walking bounces and, once the timer reaches the length, switches to taunt with timer 0 and a length in [60,120]; taunting stands still, not moving, and then switches to walking with timer 0, velocity components ±speed and a length in [120,240] |
| `Enemies.MoveAI` | main.py:408-409 | a Bat or Wraith1 takes the bouncing step, a Wraith2 the pursuit step and a Wraith3 the walk-and-taunt step; each keeps its kind, speed and animation set |
| `Enemies.MoveAIKeepsVelocity` | main.py:202-203 | the velocity components start at ±speed and stay at ±speed after every tick, bounce or redraw |
| `Enemies.MoveAIKeepsWraith3` | main.py:271-304 | Wraith3's state is always walking or taunt, and its timer stays below the current phase length |
| `Enemies.PhaseLasts` | main.py:277-302 | a Wraith3 phase lasts exactly its remaining length: for fewer ticks the state holds and the timer counts up; on the tick the length is reached, the other phase starts with the timer at 0 |
| `Enemies.AxisStepKeepsNear` | main.py:206-214 | on one axis, being at most one velocity step outside the field, with the velocity pointing back in whenever outside, is preserved by a step |
| `Enemies.BouncerStaysNear` | main.py:205-214 | a Bat or Wraith1 that fits in the field and starts inside it never strays more than one velocity step outside it |
| `Enemies.SubPixelBouncerPinned` | main.py:206-212 | a bouncer with a speed below one pixel that sits on the left edge stays there: its inward step truncates away, and the velocity flips back out |
| `Enemies.NewEnemy` | main.py:198-275 | a new enemy has the drawn kind and centre and its level's speed (0.8+0.15·level for Bat, 0.8+0.1·level for Wraith1 and Wraith3, 0.64+0.1·level for Wraith2, in hundredths); velocity signs are as drawn; Wraith3 starts walking with timer 0 and the drawn length; the body is the kind's character exactly as `Characters.MakeCharacter` builds it (0.6-scaled box, the kind's animations, facing right, still), with Wraith3 switched to walking; construction fails iff the kind's sprite set has no initial animation |
| `Session.LoadHighScore` | main.py:313-319 | the stored integer, or 0 when the file is missing or does not hold an integer |
| `Session.Startup` | main.py:15-22 | the program starts in the menu with music on, level 1, no gems, no exit hint, no player or entities, and the loaded high score |
| `Session.SaveHighScore` | main.py:321-326 | the high score becomes the maximum of the old score and the count; the file is written, with the count, exactly when the count is strictly greater |
| `Session.SaveHighScoreIdempotent` | main.py:321-326 | a second save right after the first changes nothing |
| `Session.SaveHighScoreExamples` | main.py:321-326 | with a prior best of 10, a run of 15 stores 15, and a run of 8 leaves the score and the file as they were |
| `Session.SpawnEnemies` | main.py:354-362 | one enemy per draw, in draw order, each the constructor's result; fails exactly when some draw's sprite set is missing |
| `Session.Spawn` | main.py:346-367 | a level gets 2 + (level-1) enemies and 5 gems; every enemy starts inside the 50-pixel margin, more than 200 pixels from the player's centre, with its level's speed; every gem starts inside the margin |
| `Session.ResetGame` | main.py:328-334 | starting a run: playing, level 1, no gems, the player exactly as `PlayerControl.NewPlayer` builds it at the field centre, the population exactly as `Spawn` builds it for level 1 (2 enemies, 5 gems), assets kept; high score, score file, music flag and exit hint carry over; the population is placed as `Spawn` promises; the reset fails exactly when the hero or some drawn enemy has no initial animation |
| `Session.NextLevel` | main.py:369-378 | the level rises by one; only the player's box moves, to centre (50, 300), keeping its size; the new population is exactly what `Spawn` builds for the new level; enemies and gems are replaced by 2 + (level-1) and 5 new ones; nothing else changes; the population is placed as `Spawn` promises; the advance fails exactly when some drawn enemy has no initial animation |
| `Session.Lose` | main.py:435-437 | a contact ends the run and saves the high score as a maximum |
| `Session.EnemyPass` | main.py:434-440 | with at least one contact, the result is one game-over-and-save, however many enemies touch; with no contact, nothing changes |
| `Session.Collect` | main.py:442-446 | every overlapped gem is removed and no other; the survivors keep their relative order; the number removed is the number overlapped |
| `Session.CheckCollisions` | main.py:432-456 | enemy contact means game over, with the high score saved from the count before this tick's gems; the count rises by the number of gems overlapped, and any pickup sets the boost; in the exit strip with no gems left the level advances (player to (50, 300), 2 + (level-1) enemies, 5 gems), otherwise the hint is raised; the player keeps its base speed, and a level advance moves only the centre of its box; the pass fails exactly when it advances and some drawn enemy has no initial animation |
| `Session.MoveAll` | main.py:408-409 | every enemy takes exactly one step, in list order, against the player's moved box |
| `Session.Update` | main.py:404-414 | playing: the player moves, then the enemies, then collisions, with the outcome above; game over and instructions: escape returns to the menu, otherwise nothing changes; menu: nothing changes; a tick fails only while playing, and exactly when the moved player opens the exit and some drawn enemy has no initial animation |
| `Session.OnMouseDown` | main.py:416-430 | only in the menu: start resets the game, music toggles the flag, instructions switches mode, quit stops the program; any other click does nothing |
| `Session.UpdateKeepsSession` | main.py:404-456 | a tick only takes allowed mode changes (playing to game over, game over to menu, instructions to menu); a player exists whenever a run is shown; the high score never decreases; the score file only ever receives the high score |
| `Session.ClickKeepsSession` | main.py:416-430 | a click only takes menu to playing or to instructions, keeps the session valid, and leaves the high score and the score file alone |
| `Session.EscapeReturnsToMenu` | main.py:411-414 | on the game-over and instructions screens, the tick reaches the menu iff escape is held; otherwise the world is unchanged |
| `Session.GameOverTickCanStillAdvance` | main.py:434-453 | the collision pass does not stop at a contact: on a tick with an enemy contact, the last gems picked up and the player in the exit strip, the run ends and the level still advances; with every enemy folder in place the tick succeeds |
| `Session.SavedScoreIgnoresSameTickGems` | main.py:434-446 | when an enemy contact and a gem pickup happen on the same tick, with the score at its best, the saved high score ends below the run's final gem count; with every enemy folder in place the tick succeeds |
| `Session.HintReturnsOnlyInStrip` | main.py:342-344 | after the exit-hint timer clears the hint, the next collision pass shows it again exactly when the player is in the exit strip with gems left (main.py:449-456) |
| `Session.ReadySpawnSucceeds` | main.py:109-111 | a constructor raises only for a folder with no initial animation, so when every enemy folder has one, spawning never stops the program |
| `Session.StartupValid` | main.py:15-22 | the program starts in a state where every run on screen has a player and the level is at least 1 |

## Left out

- Drawing (`draw`, `draw_menu`, `draw_game_over`, `draw_instructions`, `Character.draw`) and all screen and `Actor` rendering calls: they have no effect on game state.
- Sprite discovery (`load_variants`, with filesystem globbing and path normalisation). Each sprite folder is a given, immutable dictionary of image-name lists, plus the size of the image a new character first shows.
- Sound and music calls: only the music-on flag is kept. The `sounds.*` calls and the `music.play` at the start of a run are guarded against failure. The `music.stop`, `music.pause` and `music.unpause` calls (main.py:414, 424, 426, 440) are not guarded, and a failure in them is not modelled.
- Rescheduling the exit hint's 2-second clock callback: the model keeps the flag and the callback (`Session.HideExitMessage`), not the wall-clock scheduler.
- Enemies.Wraith2Move: the displacement along the normalised vector toward the player (`math.hypot` and float division) is an input in hundredths of a pixel, not computed. Only the distance test, the state and the facing are modelled.
- The speed formulas' floating-point rounding: speeds are taken as exact hundredths of a pixel.
- The 0.6 sprite scale is taken as exact, and a gem's box is its image's box centred like a character's. The gem actor's half-pixel placement rounding is not modelled.
- The unbounded retry loop that places each enemy more than 200 pixels from the player: its accepted draws are inputs (`Session.ValidSpawn`). Whether it terminates is not modelled.
- Random choices (positions, enemy kinds, velocity signs, phase lengths) are inputs with their ranges as preconditions.
- Mouse hit-testing of the menu buttons: a click arrives as the button it hit, if any. `exit()` is the `Exit` stop.
- Reading and writing `score.txt`: the file is the `stored` field, and parsing it is not modelled.

=== FILE: animation.dfy ===
/** Choosing a character's frame list and stepping through it.

    A character's animations are an immutable dictionary from a key such as
    "walking_left", "idle" or "right" to a list of image names. A key may be
    missing or map to an empty list; both mean "no animation here". */
module Animation {
  import opened Outcomes

  type Animations = map<string, seq<string>>

  datatype Dir = Up | Down | Left | Right

  /** The behavioural state tag a character carries. */
  datatype Activity = Idle | Walking | Attacking | Taunt

  function DirName(d: Dir): string {
    match d
    case Up => "up"
    case Down => "down"
    case Left => "left"
    case Right => "right"
  }

  function ActivityName(s: Activity): string {
    match s
    case Idle => "idle"
    case Walking => "walking"
    case Attacking => "attacking"
    case Taunt => "taunt"
  }

  /** A key names a list that can be used: it is present and non-empty. */
  predicate Usable(anims: Animations, key: string) {
    key in anims && |anims[key]| > 0
  }

  /** The keys tried, most specific first. */
  function Candidates(moving: bool, state: Activity, dir: Dir): seq<string> {
    if moving then
      [ActivityName(state) + "_" + DirName(dir), DirName(dir), ActivityName(state), "move", "walking"]
    else
      ["idle_" + DirName(dir), "idle", DirName(dir), "down"]
  }

  /** The keys tried when a character is built, for its first image. */
  const InitialKeys: seq<string> := ["idle_right", "idle", "right", "move"]

  /** Index of the first usable key at or after `start`. */
  function FirstUsable(anims: Animations, keys: seq<string>, start: nat): (r: Option<nat>)
    requires start <= |keys|
    ensures r.Some? ==> start <= r.value < |keys| && Usable(anims, keys[r.value])
    ensures r.Some? ==> forall j :: start <= j < r.value ==> !Usable(anims, keys[j])
    ensures r.None? ==> forall j :: start <= j < |keys| ==> !Usable(anims, keys[j])
    decreases |keys| - start
  {
    if start == |keys| then None
    else if Usable(anims, keys[start]) then Some(start)
    else FirstUsable(anims, keys, start + 1)
  }

  /** The list named by the first usable key, or None when no key is usable. */
  function Select(anims: Animations, keys: seq<string>): (r: Option<seq<string>>)
    ensures r.None? <==> forall j :: 0 <= j < |keys| ==> !Usable(anims, keys[j])
    ensures r.Some? ==> |r.value| > 0
    ensures r.Some? ==>
      exists i :: 0 <= i < |keys| && Usable(anims, keys[i]) && r.value == anims[keys[i]]
        && forall j :: 0 <= j < i ==> !Usable(anims, keys[j])
  {
    match FirstUsable(anims, keys, 0)
    case Some(i) => Some(anims[keys[i]])
    case None => None
  }

  /** The frame list a character animates with this tick. */
  function PickSprites(anims: Animations, moving: bool, state: Activity, dir: Dir): Option<seq<string>> {
    Select(anims, Candidates(moving, state, dir))
  }

  /** Select returns the list of the first usable key, whichever it is. */
  lemma SelectFirst(anims: Animations, keys: seq<string>, i: nat)
    requires i < |keys| && Usable(anims, keys[i])
    requires forall j :: 0 <= j < i ==> !Usable(anims, keys[j])
    ensures Select(anims, keys) == Some(anims[keys[i]])
  {
    var r := Select(anims, keys);
    var k :| 0 <= k < |keys| && Usable(anims, keys[k]) && r.value == anims[keys[k]]
      && forall j :: 0 <= j < k ==> !Usable(anims, keys[j]);
  }

  /** The sprite fallback order: when moving, the state-and-direction key wins
      if usable, then the direction, the state, "move" and "walking"; when
      still, "idle_<direction>", "idle", the direction and "down". None comes
      back exactly when every candidate is missing or empty. */
  lemma PickSpritesFallback(anims: Animations, moving: bool, state: Activity, dir: Dir)
    ensures var r := PickSprites(anims, moving, state, dir);
      var sd := ActivityName(state) + "_" + DirName(dir);
      var id := "idle_" + DirName(dir);
      && (r.None? <==> forall k :: k in Candidates(moving, state, dir) ==> !Usable(anims, k))
      && (moving && Usable(anims, sd) ==> r == Some(anims[sd]))
      && (moving && !Usable(anims, sd) && Usable(anims, DirName(dir)) ==> r == Some(anims[DirName(dir)]))
      && ((moving && !Usable(anims, sd) && !Usable(anims, DirName(dir)) && Usable(anims, ActivityName(state)))
            ==> r == Some(anims[ActivityName(state)]))
      && (!moving && Usable(anims, id) ==> r == Some(anims[id]))
      && (!moving && !Usable(anims, id) && Usable(anims, "idle") ==> r == Some(anims["idle"]))
      && ((!moving && !Usable(anims, id) && !Usable(anims, "idle") && Usable(anims, DirName(dir)))
            ==> r == Some(anims[DirName(dir)]))
  {
    var keys := Candidates(moving, state, dir);
    var r := PickSprites(anims, moving, state, dir);
    if r.None? {
      forall k | k in keys ensures !Usable(anims, k) {
        var j :| 0 <= j < |keys| && keys[j] == k;
      }
    }
    if Usable(anims, keys[0]) {
      SelectFirst(anims, keys, 0);
    } else if Usable(anims, keys[1]) {
      SelectFirst(anims, keys, 1);
    } else if Usable(anims, keys[2]) {
      SelectFirst(anims, keys, 2);
    }
  }

  /** Animation progress: ticks since the last frame change, the frame index
      and the image on show. */
  datatype Anim = Anim(counter: nat, frame: nat, image: string)

  predicate Found(sprites: Option<seq<string>>) {
    sprites.Some? && |sprites.value| > 0
  }

  /** One animation tick: the counter always goes up by one; once it has
      reached `speed` and a frame list was found, the frame moves on by one
      (wrapping round the list) and the counter starts again from zero.
      Otherwise frame and image stay as they were. */
  function Advance(a: Anim, speed: nat, sprites: Option<seq<string>>): (r: Anim)
    ensures r.counter == 0 <==> Found(sprites) && a.counter + 1 >= speed
    ensures r.counter != 0 ==> r == a.(counter := a.counter + 1)
    ensures r.counter == 0 ==>
      && r.frame == (a.frame + 1) % |sprites.value|
      && r.frame < |sprites.value|
      && r.image == sprites.value[r.frame]
  {
    var counter := a.counter + 1;
    if Found(sprites) && counter >= speed then
      var frame := (a.frame + 1) % |sprites.value|;
      Anim(0, frame, sprites.value[frame])
    else
      a.(counter := counter)
  }

  /** `n` ticks with the same frame list. */
  function Animate(a: Anim, speed: nat, sprites: Option<seq<string>>, n: nat): Anim
    decreases n
  {
    if n == 0 then a else Advance(Animate(a, speed, sprites, n - 1), speed, sprites)
  }

  /** Before the threshold is reached the counter simply climbs. */
  lemma {:induction false} CounterClimbs(a: Anim, speed: nat, sprites: Option<seq<string>>, n: nat)
    requires a.counter + n < speed
    ensures Animate(a, speed, sprites, n) == a.(counter := a.counter + n)
  {
    if n > 0 {
      CounterClimbs(a, speed, sprites, n - 1);
    }
  }

  /** With a stable frame list, exactly `speed` ticks starting from a fresh
      counter move the frame on by one, modulo the list length. */
  lemma {:induction false} OneFramePerCycle(a: Anim, speed: nat, sprites: Option<seq<string>>)
    requires speed > 0 && a.counter == 0 && Found(sprites)
    ensures var r := Animate(a, speed, sprites, speed);
      && r.counter == 0
      && r.frame == (a.frame + 1) % |sprites.value|
      && r.image == sprites.value[r.frame]
  {
    CounterClimbs(a, speed, sprites, speed - 1);
  }

  /** When no candidate key is usable the frame and image never change. */
  lemma {:induction false} NoSpritesFreezesFrame(a: Anim, speed: nat, sprites: Option<seq<string>>, n: nat)
    requires !Found(sprites)
    ensures Animate(a, speed, sprites, n) == a.(counter := a.counter + n)
  {
    if n > 0 {
      NoSpritesFreezesFrame(a, speed, sprites, n - 1);
    }
  }
}

=== FILE: characters.dfy ===
/** The state every character (player or enemy) shares: its collision box,
    facing, behavioural state, movement flag and animation progress. */
module Characters {
  import opened Outcomes
  import opened Geometry
  import opened Animation

  /** A sprite folder, as already scanned: its animation dictionary and the
      size in pixels of the image a new character first shows. */
  datatype SpriteSet = SpriteSet(folder: string, animations: Animations, width: nat, height: nat)

  datatype Character = Character(
    rect: Rect,
    dir: Dir,
    state: Activity,
    moving: bool,
    anim: Anim,
    animSpeed: nat,
    animations: Animations)

  /** The collision box is the sprite scaled by 0.6, rounded down. */
  function Scaled(d: nat): nat {
    d * 6 / 10
  }

  /** A new character centred on (x, y), facing right, idle and still. Its
      first image comes from "idle_right", "idle", "right" or "move", in that
      order; when none of them is usable the sprite folder is reported missing. */
  function MakeCharacter(sprites: SpriteSet, x: int, y: int, animSpeed: nat): (r: Result<Character>)
    ensures r.Fail? <==> forall j :: 0 <= j < |InitialKeys| ==> !Usable(sprites.animations, InitialKeys[j])
    ensures r.Fail? ==> r.stop == MissingSprites(sprites.folder)
    ensures r.Ok? ==>
      && r.value.rect.CenterX() == x && r.value.rect.CenterY() == y
      && r.value.rect.w == Scaled(sprites.width) && r.value.rect.h == Scaled(sprites.height)
      && r.value.dir == Right && r.value.state == Idle && !r.value.moving
      && r.value.anim.counter == 0 && r.value.anim.frame == 0
      && r.value.animSpeed == animSpeed && r.value.animations == sprites.animations
      && exists j :: 0 <= j < |InitialKeys| && Usable(sprites.animations, InitialKeys[j])
           && (forall k :: 0 <= k < j ==> !Usable(sprites.animations, InitialKeys[k]))
           && r.value.anim.image == sprites.animations[InitialKeys[j]][0]
  {
    match Select(sprites.animations, InitialKeys)
    case None => Fail(MissingSprites(sprites.folder))
    case Some(frames) =>
      Ok(Character(
        Centered(Scaled(sprites.width), Scaled(sprites.height), x, y),
        Right, Idle, false, Anim(0, 0, frames[0]), animSpeed, sprites.animations))
  }

  /** The list this character would animate with now. */
  function Sprites(c: Character): Option<seq<string>> {
    PickSprites(c.animations, c.moving, c.state, c.dir)
  }

  /** One animation tick: the progress takes one step with the list the
      current movement, state and facing select; nothing else changes. */
  function UpdateAnimation(c: Character): (r: Character)
    ensures r == c.(anim := r.anim)
    ensures r.anim == Advance(c.anim, c.animSpeed, PickSprites(c.animations, c.moving, c.state, c.dir))
  {
    c.(anim := Advance(c.anim, c.animSpeed, Sprites(c)))
  }

  /** Changing state or direction never restarts the animation: whichever
      usable list the new key selects, the counter moves exactly as it would
      have, and the frame either stays or moves on by one within that list. */
  lemma KeyChangeKeepsProgress(c: Character, state: Activity, dir: Dir, moving: bool)
    requires Found(Sprites(c))
    requires Found(PickSprites(c.animations, moving, state, dir))
    ensures var a := UpdateAnimation(c).anim;
      var b := UpdateAnimation(c.(state := state, dir := dir, moving := moving)).anim;
      var frames := PickSprites(c.animations, moving, state, dir).value;
      && a.counter == b.counter
      && (b.frame == c.anim.frame || b.frame == (c.anim.frame + 1) % |frames|)
  {
  }
}

=== FILE: enemies.dfy ===
/** The enemies and their per-tick behaviour: two straight-line bouncers
    (Bat, Wraith1), a pursuer (Wraith2) and a walk-and-taunt machine (Wraith3).
    Speeds and velocities are in hundredths of a pixel per tick. */
module Enemies {
  import opened Outcomes
  import opened Geometry
  import opened Animation
  import opened Characters

  const BatAnimSpeed: nat := 8
  const Wraith1AnimSpeed: nat := 10
  const Wraith2AnimSpeed: nat := 8
  const Wraith3AnimSpeed: nat := 15

  /** The bounds of Wraith3's random phase lengths, in ticks. */
  const TauntMin: int := 60
  const TauntMax: int := 120
  const WalkMin: int := 120
  const WalkMax: int := 240

  datatype Kind = BatKind | Wraith1Kind | Wraith2Kind | Wraith3Kind

  datatype Enemy =
    | Bat(body: Character, speed: int, vx: int, vy: int)
    | Wraith1(body: Character, speed: int, vx: int, vy: int)
    | Wraith2(body: Character, speed: int)
    | Wraith3(body: Character, speed: int, vx: int, vy: int, timer: int, duration: int)
  {
    predicate Bouncer() {
      Bat? || Wraith1?
    }

    predicate HasVelocity() {
      !Wraith2?
    }
  }

  /** What the random source and the floating-point pursuit supply to one
      enemy for one tick. Wraith3 reads the phase lengths and the velocity
      signs when it changes phase; Wraith2 reads its displacement along the
      normalised vector toward the player, already in hundredths of a pixel. */
  datatype EnemyInput = EnemyInput(tauntLen: int, walkLen: int, negX: bool, negY: bool, stepX: int, stepY: int)

  /** `random.randint` ranges for the two Wraith3 phases. */
  predicate ValidInput(i: EnemyInput) {
    TauntMin <= i.tauntLen <= TauntMax && WalkMin <= i.walkLen <= WalkMax
  }

  function Abs(v: int): nat {
    if v < 0 then -v else v
  }

  /** `random.choice([-speed, speed])`. */
  function Signed(speed: int, negative: bool): int {
    if negative then -speed else speed
  }

  /** The box is at or past an edge of the axis `[0, limit)`. */
  predicate AtEdge(p: int, size: nat, limit: int) {
    p <= 0 || p + size >= limit
  }

  /** Movement along one axis: the position advances by the velocity, and the
      velocity is reversed when the new box is at or past either edge. */
  function AxisStep(p: int, size: nat, v: int, limit: int): (r: (int, int))
    ensures r.0 == Shift(p, v)
    ensures AtEdge(r.0, size, limit) ==> r.1 == -v
    ensures !AtEdge(r.0, size, limit) ==> r.1 == v
    ensures Abs(r.1) == Abs(v)
  {
    var q := Shift(p, v);
    (q, if AtEdge(q, size, limit) then -v else v)
  }

  datatype Bounced = Bounced(rect: Rect, vx: int, vy: int, facing: Dir)

  /** The bounce movement of Bat, Wraith1 and walking Wraith3. The facing
      comes from the horizontal velocity before any reversal. */
  function Bounce(r: Rect, vx: int, vy: int): (b: Bounced)
    ensures b.rect == r.(x := Shift(r.x, vx), y := Shift(r.y, vy))
    ensures b.facing == (if vx > 0 then Right else Left)
    ensures (b.vx, b.vy) == (AxisStep(r.x, r.w, vx, Width).1, AxisStep(r.y, r.h, vy, Height).1)
  {
    var (x, vx') := AxisStep(r.x, r.w, vx, Width);
    var (y, vy') := AxisStep(r.y, r.h, vy, Height);
    Bounced(r.(x := x, y := y), vx', vy', if vx > 0 then Right else Left)
  }

  /** One tick of Bat or Wraith1: bounce, always walking and moving. */
  function BouncerMove(e: Enemy): (r: Enemy)
    requires e.Bouncer()
    ensures r.Bouncer() && (r.Bat? <==> e.Bat?) && r.speed == e.speed
    ensures r.body.rect == e.body.rect.(x := Shift(e.body.rect.x, e.vx), y := Shift(e.body.rect.y, e.vy))
    ensures r.body.dir == (if e.vx > 0 then Right else Left)
    ensures r.vx == (if AtEdge(r.body.rect.x, r.body.rect.w, Width) then -e.vx else e.vx)
    ensures r.vy == (if AtEdge(r.body.rect.y, r.body.rect.h, Height) then -e.vy else e.vy)
    ensures Abs(r.vx) == Abs(e.vx) && Abs(r.vy) == Abs(e.vy)
    ensures r.body.state == Walking && r.body.moving
    ensures r.body.anim == Advance(e.body.anim, e.body.animSpeed, Sprites(r.body))
  {
    var b := Bounce(e.body.rect, e.vx, e.vy);
    var body := e.body.(rect := b.rect, dir := b.facing, moving := true, state := Walking);
    if e.Bat? then Bat(UpdateAnimation(body), e.speed, b.vx, b.vy)
    else Wraith1(UpdateAnimation(body), e.speed, b.vx, b.vy)
  }

  /** One tick of Wraith2, the pursuer. It compares the corner-to-corner
      distance to the player with 5 pixels (for integers, `hypot(dx, dy) > 5`
      exactly when `dx*dx + dy*dy > 25`); when farther it moves by the given
      displacement and attacks, otherwise it idles in place. It faces right
      exactly when the player is to its right. */
  function Wraith2Move(e: Enemy, player: Rect, input: EnemyInput): (r: Enemy)
    requires e.Wraith2?
    ensures r.Wraith2? && r.speed == e.speed
    ensures var dx := player.x - e.body.rect.x; var dy := player.y - e.body.rect.y;
      && (r.body.moving <==> dx * dx + dy * dy > 25)
      && r.body.dir == (if dx > 0 then Right else Left)
    ensures r.body.moving ==>
      && r.body.state == Attacking
      && r.body.rect == e.body.rect.(x := Shift(e.body.rect.x, input.stepX), y := Shift(e.body.rect.y, input.stepY))
    ensures !r.body.moving ==> r.body.state == Idle && r.body.rect == e.body.rect
    ensures r.body.anim == Advance(e.body.anim, e.body.animSpeed, Sprites(r.body))
  {
    var a := e.body.rect;
    var dx := player.x - a.x;
    var dy := player.y - a.y;
    var moving := dx * dx + dy * dy > 25;
    var body := e.body.(
      moving := moving,
      rect := if moving then a.(x := Shift(a.x, input.stepX), y := Shift(a.y, input.stepY)) else a,
      state := if moving then Attacking else Idle,
      dir := if dx > 0 then Right else Left);
    Wraith2(UpdateAnimation(body), e.speed)
  }

  /** The pursuer stands still at exactly 5 pixels and attacks at 6. */
  lemma Wraith2Threshold(body: Character, speed: int, input: EnemyInput)
    ensures var near := Wraith2Move(Wraith2(body.(rect := body.rect.(x := 100, y := 105)), speed), Rect(100, 100, 10, 10), input);
      !near.body.moving && near.body.state == Idle && near.body.rect.y == 105
    ensures var far := Wraith2Move(Wraith2(body.(rect := body.rect.(x := 100, y := 106)), speed), Rect(100, 100, 10, 10), input);
      far.body.moving && far.body.state == Attacking
  {
  }

  /** One tick of Wraith3, a two-phase machine. The phase timer counts every
      tick. Walking, it bounces; once the timer reaches the phase length it
      starts a taunt of 60 to 120 ticks. Taunting, it stands still; once the
      timer reaches the phase length it walks again for 120 to 240 ticks with
      freshly drawn velocity signs. Entering a phase restarts the timer. */
  function Wraith3Move(e: Enemy, input: EnemyInput): (r: Enemy)
    requires e.Wraith3? && ValidInput(input)
    ensures r.Wraith3? && r.speed == e.speed
    ensures r.timer == 0 || r.timer == e.timer + 1
    ensures e.body.state == Walking ==>
      var b := Bounce(e.body.rect, e.vx, e.vy);
      && r.body.moving && r.body.rect == b.rect && r.body.dir == b.facing
      && r.vx == b.vx && r.vy == b.vy
      && (e.timer + 1 >= e.duration ==> r.body.state == Taunt && r.timer == 0 && TauntMin <= r.duration <= TauntMax)
      && (e.timer + 1 < e.duration ==> r.body.state == Walking && r.timer == e.timer + 1 && r.duration == e.duration)
    ensures e.body.state == Taunt ==>
      && !r.body.moving && r.body.rect == e.body.rect && r.body.dir == e.body.dir
      && (e.timer + 1 >= e.duration ==>
            && r.body.state == Walking && r.timer == 0 && WalkMin <= r.duration <= WalkMax
            && Abs(r.vx) == Abs(e.speed) && Abs(r.vy) == Abs(e.speed))
      && (e.timer + 1 < e.duration ==>
            && r.body.state == Taunt && r.timer == e.timer + 1 && r.duration == e.duration
            && r.vx == e.vx && r.vy == e.vy)
    ensures e.body.state != Walking && e.body.state != Taunt ==>
      && r.body == e.body.(anim := r.body.anim)
      && r.timer == e.timer + 1 && r.duration == e.duration && r.vx == e.vx && r.vy == e.vy
    ensures r.body.anim == Advance(e.body.anim, e.body.animSpeed, Sprites(r.body))
  {
    var timer := e.timer + 1;
    var body := e.body;
    if body.state == Walking then
      var b := Bounce(body.rect, e.vx, e.vy);
      var walked := body.(moving := true, rect := b.rect, dir := b.facing);
      if timer >= e.duration then
        Wraith3(UpdateAnimation(walked.(state := Taunt)), e.speed, b.vx, b.vy, 0, input.tauntLen)
      else
        Wraith3(UpdateAnimation(walked), e.speed, b.vx, b.vy, timer, e.duration)
    else if body.state == Taunt then
      var still := body.(moving := false);
      if timer >= e.duration then
        Wraith3(UpdateAnimation(still.(state := Walking)), e.speed,
          Signed(e.speed, input.negX), Signed(e.speed, input.negY), 0, input.walkLen)
      else
        Wraith3(UpdateAnimation(still), e.speed, e.vx, e.vy, timer, e.duration)
    else
      Wraith3(UpdateAnimation(body), e.speed, e.vx, e.vy, timer, e.duration)
  }

  /** One tick of any enemy; `player` is the player's box after its own move. */
  function MoveAI(e: Enemy, input: EnemyInput, player: Rect): (r: Enemy)
    requires ValidInput(input)
    ensures r.Bat? == e.Bat? && r.Wraith1? == e.Wraith1? && r.Wraith2? == e.Wraith2? && r.Wraith3? == e.Wraith3?
    ensures r.speed == e.speed
    ensures r.body.animSpeed == e.body.animSpeed && r.body.animations == e.body.animations
    ensures e.Bouncer() ==> r == BouncerMove(e)
    ensures e.Wraith2? ==> r == Wraith2Move(e, player, input)
    ensures e.Wraith3? ==> r == Wraith3Move(e, input)
  {
    if e.Bouncer() then BouncerMove(e)
    else if e.Wraith2? then Wraith2Move(e, player, input)
    else Wraith3Move(e, input)
  }

  /** Enemies that carry a velocity keep each component at plus or minus
      their speed. */
  predicate VelocityOk(e: Enemy) {
    e.HasVelocity() ==> Abs(e.vx) == Abs(e.speed) && Abs(e.vy) == Abs(e.speed)
  }

  /** Bouncing and Wraith3's redraws never change the size of a velocity
      component: every tick preserves VelocityOk. */
  lemma MoveAIKeepsVelocity(e: Enemy, input: EnemyInput, player: Rect)
    requires ValidInput(input) && VelocityOk(e)
    ensures VelocityOk(MoveAI(e, input, player))
  {
  }

  /** A well-formed Wraith3 is walking or taunting, with its timer below the
      current phase length. */
  predicate Wraith3Ok(e: Enemy) {
    e.Wraith3? ==>
      && (e.body.state == Walking || e.body.state == Taunt)
      && 0 <= e.timer < e.duration
  }

  /** Every tick keeps Wraith3 well formed: its state is always one of the
      two phases. */
  lemma MoveAIKeepsWraith3(e: Enemy, input: EnemyInput, player: Rect)
    requires ValidInput(input) && Wraith3Ok(e)
    ensures Wraith3Ok(MoveAI(e, input, player))
  {
  }

  predicate AllValid(inputs: seq<EnemyInput>) {
    forall i :: 0 <= i < |inputs| ==> ValidInput(inputs[i])
  }

  /** Wraith3 run for one tick per input, in order. */
  function Wraith3Run(e: Enemy, inputs: seq<EnemyInput>): (r: Enemy)
    requires e.Wraith3? && AllValid(inputs)
    ensures r.Wraith3?
    decreases |inputs|
  {
    if |inputs| == 0 then e
    else Wraith3Move(Wraith3Run(e, inputs[..|inputs| - 1]), inputs[|inputs| - 1])
  }

  /** A phase lasts exactly as long as its remaining length: for fewer ticks
      the state holds and the timer counts up; on the tick the length is
      reached the other phase begins with its timer at zero. */
  lemma {:induction false} PhaseLasts(e: Enemy, inputs: seq<EnemyInput>)
    requires e.Wraith3? && Wraith3Ok(e) && AllValid(inputs)
    requires |inputs| <= e.duration - e.timer
    ensures var r := Wraith3Run(e, inputs);
      && (|inputs| < e.duration - e.timer ==>
            r.body.state == e.body.state && r.timer == e.timer + |inputs| && r.duration == e.duration)
      && (|inputs| == e.duration - e.timer ==>
            r.body.state != e.body.state && r.timer == 0 && Wraith3Ok(r))
    decreases |inputs|
  {
    if |inputs| > 0 {
      PhaseLasts(e, inputs[..|inputs| - 1]);
    }
  }

  /** One axis of a bouncer is never more than one velocity step outside
      `[0, limit)`, and whenever it lies outside on one side its velocity
      points back in. */
  predicate AxisNear(p: int, size: nat, v: int, limit: int) {
    && Scale * p + Abs(v) >= 0
    && Scale * (p + size - limit) <= Abs(v)
    && (v < 0 ==> p >= 0)
    && (v > 0 ==> p + size <= limit)
  }

  lemma AxisStepKeepsNear(p: int, size: nat, v: int, limit: int)
    requires size <= limit && AxisNear(p, size, v, limit)
    ensures var (q, v') := AxisStep(p, size, v, limit); AxisNear(q, size, v', limit)
  {
    var q := Shift(p, v);
    assert q * Scale - Scale < p * Scale + v <= q * Scale + Scale;
  }

  predicate BouncerNear(e: Enemy) {
    e.Bouncer() ==>
      && AxisNear(e.body.rect.x, e.body.rect.w, e.vx, Width)
      && AxisNear(e.body.rect.y, e.body.rect.h, e.vy, Height)
  }

  /** Containment of the bouncers: a Bat or Wraith1 that fits in the field
      and starts inside it stays within one velocity step of the field
      forever, although truncation can pin it at an edge. */
  lemma BouncerStaysNear(e: Enemy, input: EnemyInput, player: Rect)
    requires ValidInput(input)
    requires e.body.rect.w <= Width && e.body.rect.h <= Height
    requires BouncerNear(e)
    ensures BouncerNear(MoveAI(e, input, player))
  {
    if e.Bouncer() {
      var a := e.body.rect;
      AxisStepKeepsNear(a.x, a.w, e.vx, Width);
      AxisStepKeepsNear(a.y, a.h, e.vy, Height);
    }
  }

  /** With a sub-pixel speed (below one pixel per tick, as every bouncer has
      on level 1), a bouncer sitting on the left edge with its velocity
      pointing in never leaves it: the forward step truncates away and the
      box is still at the edge, so the velocity flips back out. */
  lemma SubPixelBouncerPinned(e: Enemy)
    requires e.Bouncer() && e.body.rect.x == 0 && 0 < e.vx < Scale
    ensures var r := BouncerMove(e); r.body.rect.x == 0 && r.vx == -e.vx
  {
    SubPixelForwardStepIsLost(0, e.vx);
  }

  // Construction

  /** The enemies' sprite folders. */
  datatype EnemySprites = EnemySprites(bat: SpriteSet, wraith1: SpriteSet, wraith2: SpriteSet, wraith3: SpriteSet)

  function SpritesOf(s: EnemySprites, k: Kind): SpriteSet {
    match k
    case BatKind => s.bat
    case Wraith1Kind => s.wraith1
    case Wraith2Kind => s.wraith2
    case Wraith3Kind => s.wraith3
  }

  function AnimSpeedOf(k: Kind): nat {
    match k
    case BatKind => BatAnimSpeed
    case Wraith1Kind => Wraith1AnimSpeed
    case Wraith2Kind => Wraith2AnimSpeed
    case Wraith3Kind => Wraith3AnimSpeed
  }

  /** Speed on a level, in hundredths of a pixel per tick: 0.8 + 0.15 level
      for Bat, 0.8 + 0.1 level for Wraith1 and Wraith3, 0.64 + 0.1 level for
      Wraith2. */
  function SpeedOf(k: Kind, level: int): int {
    match k
    case BatKind => 80 + 15 * level
    case Wraith1Kind => 80 + 10 * level
    case Wraith2Kind => 64 + 10 * level
    case Wraith3Kind => 80 + 10 * level
  }

  function KindOf(e: Enemy): Kind {
    match e
    case Bat(_, _, _, _) => BatKind
    case Wraith1(_, _, _, _) => Wraith1Kind
    case Wraith2(_, _) => Wraith2Kind
    case Wraith3(_, _, _, _, _, _) => Wraith3Kind
  }

  /** The random choices that produce one enemy: its type, its centre, the
      signs of its velocity and, for Wraith3, its first walk length. */
  datatype EnemyDraw = EnemyDraw(kind: Kind, x: int, y: int, negX: bool, negY: bool, walkLen: int)

  /** A new enemy of the drawn type at the drawn centre. */
  function NewEnemy(sprites: EnemySprites, level: int, d: EnemyDraw): (r: Result<Enemy>)
    ensures r.Fail? <==> forall j :: 0 <= j < |InitialKeys| ==> !Usable(SpritesOf(sprites, d.kind).animations, InitialKeys[j])
    ensures r.Fail? ==> r.stop == MissingSprites(SpritesOf(sprites, d.kind).folder)
    ensures r.Ok? ==>
      var e := r.value;
      && KindOf(e) == d.kind && e.speed == SpeedOf(d.kind, level)
      && e.body.rect.CenterX() == d.x && e.body.rect.CenterY() == d.y
      && e.body.animSpeed == AnimSpeedOf(d.kind)
      && (e.HasVelocity() ==> e.vx == Signed(e.speed, d.negX) && e.vy == Signed(e.speed, d.negY))
      && (e.Wraith3? ==> e.body.state == Walking && e.timer == 0 && e.duration == d.walkLen)
    ensures r.Ok? ==>
      var c := MakeCharacter(SpritesOf(sprites, d.kind), d.x, d.y, AnimSpeedOf(d.kind));
      c.Ok? && r.value.body == (if d.kind == Wraith3Kind then c.value.(state := Walking) else c.value)
  {
    var body :- MakeCharacter(SpritesOf(sprites, d.kind), d.x, d.y, AnimSpeedOf(d.kind));
    var speed := SpeedOf(d.kind, level);
    var vx := Signed(speed, d.negX);
    var vy := Signed(speed, d.negY);
    Ok(match d.kind
       case BatKind => Bat(body, speed, vx, vy)
       case Wraith1Kind => Wraith1(body, speed, vx, vy)
       case Wraith2Kind => Wraith2(body, speed)
       case Wraith3Kind => Wraith3(body.(state := Walking), speed, vx, vy, 0, d.walkLen))
  }
}

=== FILE: geometry.dfy ===
/** The play field, integer rectangles and the rectangle library's rounding.

    Rectangles hold integer coordinates. The game adds fractional speeds to them
    (`rect.x += 0.95`); the rectangle library converts the float result back to
    an integer by truncation toward zero. Speeds are therefore carried in
    hundredths of a pixel and `Shift` performs that truncating addition exactly. */
module Geometry {

  const Width: int := 800
  const Height: int := 600

  /** Sub-pixel resolution of speeds and velocities: 100 units per pixel. */
  const Scale: int := 100

  /** `n` hundredths of a pixel as whole pixels, truncated toward zero (the C
      cast of a float to an int); Dafny's own `/` is Euclidean. */
  function Truncate(n: int): (q: int)
    ensures n >= 0 ==> 0 <= q * Scale <= n < q * Scale + Scale
    ensures n < 0 ==> q * Scale - Scale < n <= q * Scale <= 0
  {
    if n >= 0 then n / Scale else -((-n) / Scale)
  }

  /** `p + delta / Scale`, truncated toward zero: what `rect.x += v` stores
      when `v` is `delta` hundredths of a pixel. */
  function Shift(p: int, delta: int): int {
    Truncate(p * Scale + delta)
  }

  /** On the non-negative side, a step of less than one pixel in the positive
      direction is lost entirely: truncation takes the position back. */
  lemma SubPixelForwardStepIsLost(p: int, delta: int)
    requires p >= 0 && 0 <= delta < Scale
    ensures Shift(p, delta) == p
  {
    var r := Shift(p, delta);
    assert r * Scale <= p * Scale + delta < r * Scale + Scale;
  }

  /** An axis-aligned rectangle with its top-left corner at (x, y). */
  datatype Rect = Rect(x: int, y: int, w: nat, h: nat) {
    function Left(): int { x }
    function Right(): int { x + w }
    function Top(): int { y }
    function Bottom(): int { y + h }
    /** The library's centre: the corner plus half the size, rounded down. */
    function CenterX(): int { x + w / 2 }
    function CenterY(): int { y + h / 2 }
  }

  /** The rectangle of the given size whose centre is (cx, cy); assigning
      `rect.center` places the corner at the centre minus half the size. */
  function Centered(w: nat, h: nat, cx: int, cy: int): (r: Rect)
    ensures r.w == w && r.h == h
    ensures r.CenterX() == cx && r.CenterY() == cy
  {
    Rect(cx - w / 2, cy - h / 2, w, h)
  }

  /** Rectangle collision as the library defines it: the open interiors
      intersect, so rectangles that only touch along an edge do not collide,
      and an empty rectangle collides with nothing. */
  predicate Overlaps(a: Rect, b: Rect) {
    && a.w > 0 && a.h > 0 && b.w > 0 && b.h > 0
    && a.Left() < b.Right() && b.Left() < a.Right()
    && a.Top() < b.Bottom() && b.Top() < a.Bottom()
  }

  /** The exit: a strip 50 pixels wide along the right edge of the field. */
  const ExitZone: Rect := Rect(Width - 50, 0, 50, Height)
}

=== FILE: outcomes.dfy ===
/** Optional values and the two ways a step of the game can end the program:
    a sprite set that cannot be loaded (construction raises) or the quit button. */
module Outcomes {

  datatype Option<+T> = None | Some(value: T) {
    function GetOr(default: T): T {
      match this
      case Some(v) => v
      case None => default
    }
  }

  /** Why the program stopped. */
  datatype Stop =
    | MissingSprites(folder: string)   // a character's sprite folder has no initial animation
    | Exit                             // the menu's quit button

  datatype Result<+T> = Ok(value: T) | Fail(stop: Stop) {
    predicate IsFailure() {
      Fail?
    }

    function PropagateFailure<U>(): Result<U>
      requires Fail?
    {
      Fail(stop)
    }

    function Extract(): T
      requires Ok?
    {
      value
    }
  }
}

=== FILE: player.dfy ===
/** The player: keyboard-driven movement, one direction per tick, with a
    timed speed boost granted by gem pickups. Speeds are in hundredths of a
    pixel per tick. */
module PlayerControl {
  import opened Outcomes
  import opened Geometry
  import opened Animation
  import opened Characters

  const PlayerSpeed: int := 200      // 2 pixels per tick
  const BoostSpeed: int := 150       // 1.5 extra pixels per tick
  const BoostTicks: int := 120       // 2 seconds at 60 ticks per second
  const PlayerAnimSpeed: nat := 5

  datatype Player = Player(body: Character, speed: int, boost: int, boostTimer: int)

  /** The arrow keys (and escape) held down this tick. */
  datatype Keys = Keys(up: bool, down: bool, left: bool, right: bool, escape: bool)

  /** A new player centred on (x, y), with no boost. */
  function NewPlayer(hero: SpriteSet, x: int, y: int): (r: Result<Player>)
    ensures r.Ok? ==> r.value.body.rect.CenterX() == x && r.value.body.rect.CenterY() == y
    ensures r.Ok? ==> r.value.speed == PlayerSpeed && r.value.boost == 0 && r.value.boostTimer == 0
    ensures r.Ok? ==> r.value.body.animSpeed == PlayerAnimSpeed && r.value.body.state == Idle
    ensures r.Fail? <==> forall j :: 0 <= j < |InitialKeys| ==> !Usable(hero.animations, InitialKeys[j])
    ensures r.Fail? ==> r.stop == MissingSprites(hero.folder)
    ensures r.Ok? ==> MakeCharacter(hero, x, y, PlayerAnimSpeed) == Ok(r.value.body)
  {
    var body :- MakeCharacter(hero, x, y, PlayerAnimSpeed);
    Ok(Player(body, PlayerSpeed, 0, 0))
  }

  /** A gem pickup: the boost is set (not added) and its timer restarts. */
  function ApplyBoost(p: Player): (r: Player)
    ensures r.boost == BoostSpeed && r.boostTimer == BoostTicks
    ensures r.body == p.body && r.speed == p.speed
  {
    p.(boost := BoostSpeed, boostTimer := BoostTicks)
  }

  /** The boost countdown at the start of a tick: a positive timer goes down
      by one, and the boost is dropped on the tick the timer runs out. */
  function Countdown(boost: int, timer: int): (r: (int, int))
    ensures timer > 0 ==> r.1 == timer - 1 && r.1 >= 0
    ensures timer <= 0 ==> r.1 == timer
    ensures r.0 == (if timer == 1 then 0 else boost)
  {
    if timer > 0 then
      var t := timer - 1;
      (if t <= 0 then 0 else boost, t)
    else
      (boost, timer)
  }

  /** `n` countdown ticks. */
  function Countdowns(boost: int, timer: int, n: nat): (int, int)
    decreases n
  {
    if n == 0 then (boost, timer)
    else
      var (b, t) := Countdowns(boost, timer, n - 1);
      Countdown(b, t)
  }

  /** A boost of `timer` ticks stays in force while the timer counts down and
      is gone, with the timer at zero, once `timer` ticks have passed. */
  lemma {:induction false} CountdownRuns(boost: int, timer: int, n: nat)
    requires timer > 0
    ensures n < timer ==> Countdowns(boost, timer, n) == (boost, timer - n)
    ensures n >= timer ==> Countdowns(boost, timer, n) == (0, 0)
  {
    if n > 0 {
      CountdownRuns(boost, timer, n - 1);
    }
  }

  /** After a pickup the player moves with the boost on the next 119 ticks
      (the timer is decremented before the step size is taken), and from the
      120th tick on with its base speed. */
  lemma BoostLasts(n: nat)
    ensures 1 <= n < BoostTicks ==> Countdowns(BoostSpeed, BoostTicks, n).0 == BoostSpeed
    ensures n >= BoostTicks ==> Countdowns(BoostSpeed, BoostTicks, n) == (0, 0)
  {
    CountdownRuns(BoostSpeed, BoostTicks, n);
  }

  function Pressed(keys: Keys, d: Dir): bool {
    match d
    case Up => keys.up
    case Down => keys.down
    case Left => keys.left
    case Right => keys.right
  }

  /** The edge guard of each direction: the box is not yet at that edge. */
  predicate Free(r: Rect, d: Dir) {
    match d
    case Up => r.Top() > 0
    case Down => r.Bottom() < Height
    case Left => r.Left() > 0
    case Right => r.Right() < Width
  }

  predicate Honoured(keys: Keys, r: Rect, d: Dir) {
    Pressed(keys, d) && Free(r, d)
  }

  /** Priority of the keys: up, then down, then left, then right. */
  function Rank(d: Dir): nat {
    match d
    case Up => 0
    case Down => 1
    case Left => 2
    case Right => 3
  }

  /** The one direction honoured this tick: the highest-priority key that is
      pressed and whose edge guard holds; a blocked key falls through. */
  function ChosenDir(keys: Keys, r: Rect): (d: Option<Dir>)
    ensures d.None? <==> forall e :: !Honoured(keys, r, e)
    ensures d.Some? ==> Honoured(keys, r, d.value)
    ensures d.Some? ==> forall e :: Rank(e) < Rank(d.value) ==> !Honoured(keys, r, e)
  {
    if Honoured(keys, r, Up) then Some(Up)
    else if Honoured(keys, r, Down) then Some(Down)
    else if Honoured(keys, r, Left) then Some(Left)
    else if Honoured(keys, r, Right) then Some(Right)
    else None
  }

  /** The box moved `step` hundredths of a pixel in direction `d`. */
  function Step(r: Rect, d: Dir, step: int): Rect {
    match d
    case Up => r.(y := Shift(r.y, -step))
    case Down => r.(y := Shift(r.y, step))
    case Left => r.(x := Shift(r.x, -step))
    case Right => r.(x := Shift(r.x, step))
  }

  /** One player tick. */
  function Move(p: Player, keys: Keys): (r: Player)
    ensures (r.boost, r.boostTimer) == Countdown(p.boost, p.boostTimer)
    ensures r.speed == p.speed
    ensures r.body.moving <==> exists d :: Honoured(keys, p.body.rect, d)
    ensures r.body.state == (if r.body.moving then Walking else Idle)
    ensures !r.body.moving ==> r.body.rect == p.body.rect && r.body.dir == p.body.dir
    ensures r.body.moving ==>
      && Honoured(keys, p.body.rect, r.body.dir)
      && (forall e :: Rank(e) < Rank(r.body.dir) ==> !Honoured(keys, p.body.rect, e))
      && r.body.rect == Step(p.body.rect, r.body.dir, p.speed + r.boost)
    ensures r.body.rect.x == p.body.rect.x || r.body.rect.y == p.body.rect.y
    ensures r.body.rect.w == p.body.rect.w && r.body.rect.h == p.body.rect.h
    ensures r.body.anim == Advance(p.body.anim, p.body.animSpeed, Sprites(r.body))
    ensures r.body.animSpeed == p.body.animSpeed && r.body.animations == p.body.animations
  {
    var (boost, timer) := Countdown(p.boost, p.boostTimer);
    var step := p.speed + boost;
    var b := p.body;
    var moved :=
      match ChosenDir(keys, b.rect)
      case Some(d) => b.(rect := Step(b.rect, d, step), dir := d, moving := true, state := Walking)
      case None => b.(moving := false, state := Idle);
    Player(UpdateAnimation(moved), p.speed, boost, timer)
  }

  /** The box lies in the field widened by `m` pixels on every side. */
  predicate NearField(r: Rect, m: int) {
    && r.Top() >= -m && r.Bottom() <= Height + m
    && r.Left() >= -m && r.Right() <= Width + m
  }

  /** The edge guards are checked before the step, so a move can overshoot an
      edge, but by less than one step: a player within `m` pixels of the field
      stays within `m` pixels when its step is at most `m` pixels. */
  lemma PlayerStaysNearField(p: Player, keys: Keys, m: int)
    requires p.speed >= 0 && p.boost >= 0 && p.speed + p.boost <= m * Scale
    requires p.body.rect.w <= Width && p.body.rect.h <= Height
    requires NearField(p.body.rect, m)
    ensures NearField(Move(p, keys).body.rect, m)
  {
    var r := Move(p, keys);
    var step := p.speed + r.boost;
    var a := p.body.rect;
    if r.body.moving {
      var v := match r.body.dir
        case Up => a.y * Scale - step
        case Down => a.y * Scale + step
        case Left => a.x * Scale - step
        case Right => a.x * Scale + step;
      var q := Truncate(v);
      assert q * Scale - Scale < v <= q * Scale + Scale;
    }
  }
}

=== FILE: session.dfy ===
/** The game session: top-level mode, level, gem count, high score and the
    entity lists, with the per-tick update, collision resolution, level
    progression and menu actions. Drawing, sound and music are left out; the
    score file is the `stored` field (None when missing or not an integer). */
module Session {
  import opened Outcomes
  import opened Geometry
  import opened Animation
  import opened Characters
  import opened PlayerControl
  import opened Enemies

  datatype Mode = Menu | Playing | GameOver | Instructions

  /** The menu buttons, after hit-testing the click position. */
  datatype Button = StartButton | MusicButton | InstructionsButton | QuitButton

  datatype Assets = Assets(hero: SpriteSet, enemySprites: EnemySprites, gemW: nat, gemH: nat)

  datatype World = World(
    mode: Mode,
    musicOn: bool,
    level: int,
    gemsCollected: int,
    highScore: int,
    showExitHint: bool,
    player: Option<Player>,
    enemies: seq<Enemy>,
    gems: seq<Rect>,
    stored: Option<int>,
    assets: Assets)

  const GemCount: nat := 5
  const SpawnMargin: int := 50
  const SafeDistance: int := 200

  /** Where a new run puts the player, and where a new level puts it. */
  const StartX: int := Width / 2
  const StartY: int := Height / 2
  const LevelStartX: int := 50

  /** `range(2 + (level - 1))`: the number of enemies on a level. */
  function EnemyCount(level: int): nat {
    if 2 + (level - 1) > 0 then 2 + (level - 1) else 0
  }

  function Max(a: int, b: int): int {
    if a >= b then a else b
  }

  // Start-up and the score file

  /** The score file's content, or 0 when it is missing or not an integer. */
  function LoadHighScore(stored: Option<int>): (hs: int)
    ensures stored.Some? ==> hs == stored.value
    ensures stored.None? ==> hs == 0
  {
    stored.GetOr(0)
  }

  /** The program's state before the first click: the menu, music on,
      level 1, nothing collected, the loaded high score and no player yet. */
  function Startup(stored: Option<int>, assets: Assets): (w: World)
    ensures w.mode == Menu && w.musicOn && w.level == 1 && w.gemsCollected == 0
    ensures w.highScore == LoadHighScore(stored) && w.stored == stored
    ensures !w.showExitHint && w.player.None? && w.enemies == [] && w.gems == []
    ensures w.assets == assets
  {
    World(Menu, true, 1, 0, LoadHighScore(stored), false, None, [], [], stored, assets)
  }

  /** The program starts in a state the session invariant allows. */
  lemma StartupValid(stored: Option<int>, assets: Assets)
    ensures Valid(Startup(stored, assets))
  {
  }

  /** High score and score file together. */
  datatype Record = Record(highScore: int, stored: Option<int>)

  /** At the end of a run: a gem count above the high score becomes the new
      high score and is written to the file; otherwise nothing changes. */
  function SaveHighScore(collected: int, r: Record): (s: Record)
    ensures s.highScore == Max(r.highScore, collected)
    ensures s.stored != r.stored ==> s.stored == Some(collected) && collected > r.highScore
    ensures collected > r.highScore ==> s.stored == Some(collected)
  {
    if collected > r.highScore then Record(collected, Some(collected)) else r
  }

  /** Saving twice in a row writes nothing the second time. */
  lemma SaveHighScoreIdempotent(collected: int, r: Record)
    ensures SaveHighScore(collected, SaveHighScore(collected, r)) == SaveHighScore(collected, r)
  {
  }

  /** A prior best of 10: a run of 15 stores 15, a run of 8 leaves 10. */
  lemma SaveHighScoreExamples(stored: Option<int>)
    ensures SaveHighScore(15, Record(10, stored)) == Record(15, Some(15))
    ensures SaveHighScore(8, Record(10, stored)) == Record(10, stored)
  {
  }

  // Spawning

  /** The random choices that populate a level. */
  datatype SpawnDraws = SpawnDraws(enemies: seq<EnemyDraw>, gems: seq<(int, int)>)

  predicate InSpawnArea(x: int, y: int) {
    SpawnMargin <= x <= Width - SpawnMargin && SpawnMargin <= y <= Height - SpawnMargin
  }

  /** More than 200 pixels from (cx, cy); for integers `hypot(dx, dy) > 200`
      exactly when `dx*dx + dy*dy > 40000`. */
  predicate FarFrom(x: int, y: int, cx: int, cy: int) {
    (x - cx) * (x - cx) + (y - cy) * (y - cy) > SafeDistance * SafeDistance
  }

  predicate ValidEnemyDraw(d: EnemyDraw, cx: int, cy: int) {
    InSpawnArea(d.x, d.y) && FarFrom(d.x, d.y, cx, cy) && WalkMin <= d.walkLen <= WalkMax
  }

  /** Draws as the spawning loop produces them for `level` with the player
      centred on (cx, cy): one accepted position per enemy (the loop retries
      until a position is far enough from the player) and five gem positions. */
  predicate ValidSpawn(draws: SpawnDraws, level: int, cx: int, cy: int) {
    && |draws.enemies| == EnemyCount(level)
    && |draws.gems| == GemCount
    && (forall i :: 0 <= i < |draws.enemies| ==> ValidEnemyDraw(draws.enemies[i], cx, cy))
    && (forall i :: 0 <= i < |draws.gems| ==> InSpawnArea(draws.gems[i].0, draws.gems[i].1))
  }

  /** The enemies of a level, built in draw order; the first enemy whose
      sprite set is missing stops the program. */
  function SpawnEnemies(sprites: EnemySprites, level: int, ds: seq<EnemyDraw>): (r: Result<seq<Enemy>>)
    ensures r.Fail? <==> exists i :: 0 <= i < |ds| && NewEnemy(sprites, level, ds[i]).Fail?
    ensures r.Fail? ==> r.stop.MissingSprites?
    ensures r.Ok? ==> |r.value| == |ds| && forall i :: 0 <= i < |ds| ==> NewEnemy(sprites, level, ds[i]) == Ok(r.value[i])
    decreases |ds|
  {
    if |ds| == 0 then Ok([])
    else
      var e :- NewEnemy(sprites, level, ds[0]);
      var rest :- SpawnEnemies(sprites, level, ds[1..]);
      Ok([e] + rest)
  }

  /** Some drawn enemy's sprite folder has no initial animation, so building
      the level's enemies stops the program. */
  predicate SpawnFails(assets: Assets, level: int, draws: SpawnDraws) {
    exists i :: 0 <= i < |draws.enemies| && NewEnemy(assets.enemySprites, level, draws.enemies[i]).Fail?
  }

  /** Every enemy kind's sprite folder has a usable initial animation. */
  predicate EnemySpritesReady(sprites: EnemySprites) {
    forall k: Kind :: exists j :: 0 <= j < |InitialKeys| && Usable(SpritesOf(sprites, k).animations, InitialKeys[j])
  }

  /** With every enemy folder in place, spawning never stops the program. */
  lemma ReadySpawnSucceeds(assets: Assets, level: int, draws: SpawnDraws)
    requires EnemySpritesReady(assets.enemySprites)
    ensures !SpawnFails(assets, level, draws)
  {
    forall i | 0 <= i < |draws.enemies|
      ensures NewEnemy(assets.enemySprites, level, draws.enemies[i]).Ok?
    {
      var k := draws.enemies[i].kind;
      var j :| 0 <= j < |InitialKeys| && Usable(SpritesOf(assets.enemySprites, k).animations, InitialKeys[j]);
    }
  }

  /** A gem: the gem image's box centred on its drawn position. */
  function GemAt(assets: Assets, pos: (int, int)): Rect {
    Centered(assets.gemW, assets.gemH, pos.0, pos.1)
  }

  datatype Population = Population(enemies: seq<Enemy>, gems: seq<Rect>)

  /** Every enemy starts inside the spawn area, more than 200 pixels from the
      player's centre, with its level's speed; every gem starts inside the
      spawn area. */
  predicate Placed(pop: Population, level: int, cx: int, cy: int) {
    && (forall i :: 0 <= i < |pop.enemies| ==>
          var c := pop.enemies[i].body.rect;
          && FarFrom(c.CenterX(), c.CenterY(), cx, cy)
          && InSpawnArea(c.CenterX(), c.CenterY())
          && pop.enemies[i].speed == SpeedOf(KindOf(pop.enemies[i]), level))
    && (forall i :: 0 <= i < |pop.gems| ==> InSpawnArea(pop.gems[i].CenterX(), pop.gems[i].CenterY()))
  }

  /** A level's enemies and gems, replacing the old lists. */
  function Spawn(assets: Assets, level: int, draws: SpawnDraws, cx: int, cy: int): (r: Result<Population>)
    requires ValidSpawn(draws, level, cx, cy)
    ensures r.Fail? <==> SpawnFails(assets, level, draws)
    ensures r.Fail? ==> r.stop.MissingSprites?
    ensures r.Ok? ==> |r.value.enemies| == EnemyCount(level) && |r.value.gems| == GemCount
    ensures r.Ok? ==> Placed(r.value, level, cx, cy)
  {
    var es :- SpawnEnemies(assets.enemySprites, level, draws.enemies);
    Ok(Population(es, seq(|draws.gems|, i requires 0 <= i < |draws.gems| => GemAt(assets, draws.gems[i]))))
  }

  // Session transitions

  /** The states the program can reach: a player exists whenever a run is on
      screen, and the level is at least 1. */
  predicate Valid(w: World) {
    && ((w.mode == Playing || w.mode == GameOver) ==> w.player.Some?)
    && w.level >= 1
  }

  /** Start from the menu: a fresh player at the centre, level 1, nothing
      collected, and a new population for level 1. The exit hint and the
      high score carry over. */
  function ResetGame(w: World, draws: SpawnDraws): (r: Result<World>)
    requires ValidSpawn(draws, 1, StartX, StartY)
    ensures r.Ok? ==>
      && r.value.mode == Playing && r.value.level == 1 && r.value.gemsCollected == 0
      && r.value.player.Some?
      && r.value.player.value.body.rect.CenterX() == StartX
      && r.value.player.value.body.rect.CenterY() == StartY
      && r.value.player.value.boost == 0 && r.value.player.value.boostTimer == 0
      && |r.value.enemies| == EnemyCount(1) && |r.value.gems| == GemCount
      && r.value.highScore == w.highScore && r.value.stored == w.stored
      && r.value.showExitHint == w.showExitHint && r.value.musicOn == w.musicOn
      && Placed(Population(r.value.enemies, r.value.gems), 1, StartX, StartY)
    ensures r.Ok? ==> NewPlayer(w.assets.hero, StartX, StartY) == Ok(r.value.player.value) && r.value.assets == w.assets
    ensures r.Ok? ==> Spawn(w.assets, 1, draws, StartX, StartY) == Ok(Population(r.value.enemies, r.value.gems))
    ensures r.Fail? <==> NewPlayer(w.assets.hero, StartX, StartY).Fail? || SpawnFails(w.assets, 1, draws)
    ensures r.Fail? ==> r.stop.MissingSprites?
  {
    var p :- NewPlayer(w.assets.hero, StartX, StartY);
    var pop :- Spawn(w.assets, 1, draws, StartX, StartY);
    Ok(w.(mode := Playing, level := 1, gemsCollected := 0, player := Some(p),
          enemies := pop.enemies, gems := pop.gems))
  }

  /** The next level: the level goes up by one, the player is moved to the
      left middle of the field, and enemies and gems are replaced. */
  function NextLevel(w: World, draws: SpawnDraws): (r: Result<World>)
    requires w.player.Some?
    requires ValidSpawn(draws, w.level + 1, LevelStartX, StartY)
    ensures r.Ok? ==>
      && r.value.level == w.level + 1
      && r.value.player.Some?
      && r.value.player.value == w.player.value.(body := r.value.player.value.body)
      && r.value.player.value.body == w.player.value.body.(rect := r.value.player.value.body.rect)
      && r.value.player.value.body.rect.CenterX() == LevelStartX
      && r.value.player.value.body.rect.CenterY() == StartY
      && |r.value.enemies| == EnemyCount(w.level + 1) && |r.value.gems| == GemCount
      && r == Ok(w.(level := r.value.level, player := r.value.player, enemies := r.value.enemies, gems := r.value.gems))
      && Placed(Population(r.value.enemies, r.value.gems), w.level + 1, LevelStartX, StartY)
    ensures r.Ok? ==> r.value.player.value.body.rect.w == w.player.value.body.rect.w && r.value.player.value.body.rect.h == w.player.value.body.rect.h
    ensures r.Ok? ==> Spawn(w.assets, w.level + 1, draws, LevelStartX, StartY) == Ok(Population(r.value.enemies, r.value.gems))
    ensures r.Fail? <==> SpawnFails(w.assets, w.level + 1, draws)
    ensures r.Fail? ==> r.stop.MissingSprites?
  {
    var p := w.player.value;
    var body := p.body.(rect := Centered(p.body.rect.w, p.body.rect.h, LevelStartX, StartY));
    var pop :- Spawn(w.assets, w.level + 1, draws, LevelStartX, StartY);
    Ok(w.(level := w.level + 1, player := Some(p.(body := body)), enemies := pop.enemies, gems := pop.gems))
  }

  /** The exit-hint timer firing: the hint goes away and nothing else changes. */
  function HideExitMessage(w: World): (r: World)
    ensures !r.showExitHint
  {
    w.(showExitHint := false)
  }

  // Collisions

  /** Mode and score as the enemy pass sees them. */
  datatype Score = Score(mode: Mode, highScore: int, stored: Option<int>)

  /** One enemy contact: the run is over and the high score is saved. */
  function Lose(s: Score, collected: int): (r: Score)
    ensures r.mode == GameOver && r.highScore == Max(s.highScore, collected)
    ensures r.stored == SaveHighScore(collected, Record(s.highScore, s.stored)).stored
  {
    var rec := SaveHighScore(collected, Record(s.highScore, s.stored));
    Score(GameOver, rec.highScore, rec.stored)
  }

  predicate AnyHit(enemies: seq<Enemy>, player: Rect) {
    exists i :: 0 <= i < |enemies| && Overlaps(player, enemies[i].body.rect)
  }

  /** The enemy pass visits every enemy and loses the run on each contact;
      since saving is idempotent, any number of contacts act as one. */
  function EnemyPass(enemies: seq<Enemy>, player: Rect, collected: int, s: Score): (r: Score)
    ensures AnyHit(enemies, player) ==> r == Lose(s, collected)
    ensures !AnyHit(enemies, player) ==> r == s
    decreases |enemies|
  {
    if |enemies| == 0 then s
    else
      var s' := if Overlaps(player, enemies[0].body.rect) then Lose(s, collected) else s;
      var r := EnemyPass(enemies[1..], player, collected, s');
      assert AnyHit(enemies[1..], player) ==> AnyHit(enemies, player) by {
        if AnyHit(enemies[1..], player) {
          var i :| 0 <= i < |enemies[1..]| && Overlaps(player, enemies[1..][i].body.rect);
          assert enemies[1..][i] == enemies[i + 1];
        }
      }
      assert AnyHit(enemies, player) && !Overlaps(player, enemies[0].body.rect) ==> AnyHit(enemies[1..], player) by {
        if AnyHit(enemies, player) && !Overlaps(player, enemies[0].body.rect) {
          var i :| 0 <= i < |enemies| && Overlaps(player, enemies[i].body.rect);
          assert enemies[1..][i - 1] == enemies[i];
        }
      }
      r
  }

  /** The number of gems the player's box overlaps. */
  function Hits(gems: seq<Rect>, player: Rect): nat
    decreases |gems|
  {
    if |gems| == 0 then 0
    else (if Overlaps(player, gems[0]) then 1 else 0) + Hits(gems[1..], player)
  }

  /** `a` is `b` with some elements left out, the rest in their order. */
  predicate IsSubsequence(a: seq<Rect>, b: seq<Rect>)
    decreases |b|
  {
    if |a| == 0 then true
    else if |b| == 0 then false
    else (a[0] == b[0] && IsSubsequence(a[1..], b[1..])) || IsSubsequence(a, b[1..])
  }

  /** The gem pass: every gem the player overlaps is removed; the others stay,
      in their order. */
  function Collect(gems: seq<Rect>, player: Rect): (kept: seq<Rect>)
    ensures |gems| - |kept| == Hits(gems, player)
    ensures forall g :: g in kept ==> g in gems && !Overlaps(player, g)
    ensures forall i :: 0 <= i < |gems| && !Overlaps(player, gems[i]) ==> gems[i] in kept
    ensures IsSubsequence(kept, gems)
    decreases |gems|
  {
    if |gems| == 0 then []
    else
      var rest := Collect(gems[1..], player);
      assert forall i :: 1 <= i < |gems| ==> gems[i] == gems[1..][i - 1];
      if Overlaps(player, gems[0]) then rest else [gems[0]] + rest
  }

  /** Contact with enemies, then gems, then the exit strip, in that order.
      The pass goes on after a contact, so gems picked up on the tick of the
      contact still count and the level can still advance. */
  function CheckCollisions(w: World, draws: SpawnDraws): (r: Result<World>)
    requires w.player.Some?
    requires ValidSpawn(draws, w.level + 1, LevelStartX, StartY)
    ensures r.Fail? <==> ExitOpen(w.gems, w.player.value.body.rect) && SpawnFails(w.assets, w.level + 1, draws)
    ensures r.Fail? ==> r.stop.MissingSprites?
    ensures r.Ok? ==> CollisionOutcome(w, r.value)
  {
    var p := w.player.value;
    var box := p.body.rect;
    var s := EnemyPass(w.enemies, box, w.gemsCollected, Score(w.mode, w.highScore, w.stored));
    var kept := Collect(w.gems, box);
    var picked := |w.gems| - |kept|;
    var p' := if picked > 0 then ApplyBoost(p) else p;
    var w' := w.(mode := s.mode, highScore := s.highScore, stored := s.stored,
                 gems := kept, gemsCollected := w.gemsCollected + picked, player := Some(p'));
    if Overlaps(box, ExitZone) then
      if |kept| == 0 then NextLevel(w', draws)
      else Ok(w'.(showExitHint := true))
    else
      Ok(w')
  }

  /** The player's box is in the exit strip and touches every remaining gem,
      so the pass moves on to the next level. */
  predicate ExitOpen(gems: seq<Rect>, box: Rect) {
    Overlaps(box, ExitZone) && Hits(gems, box) == |gems|
  }

  /** What one collision pass does, stated against the world before it. */
  predicate CollisionOutcome(w: World, r: World)
    requires w.player.Some?
  {
    var box := w.player.value.body.rect;
    var hits := Hits(w.gems, box);
    var exit := Overlaps(box, ExitZone);
    var advance := exit && hits == |w.gems|;
    && r.player.Some?
    && r.player.value.speed == w.player.value.speed
    // enemy contact: game over, with the count from before this tick's gems
    && (AnyHit(w.enemies, box) ==>
          && r.mode == GameOver
          && r.highScore == Max(w.highScore, w.gemsCollected)
          && r.stored == SaveHighScore(w.gemsCollected, Record(w.highScore, w.stored)).stored)
    && (!AnyHit(w.enemies, box) ==> r.mode == w.mode && r.highScore == w.highScore && r.stored == w.stored)
    // gems: each overlapped gem counts once and grants the boost
    && r.gemsCollected == w.gemsCollected + hits
    && (hits > 0 ==> r.player.value.boost == BoostSpeed && r.player.value.boostTimer == BoostTicks)
    && (hits == 0 ==> r.player.value.boost == w.player.value.boost && r.player.value.boostTimer == w.player.value.boostTimer)
    // the exit strip
    && (advance ==>
          && r.level == w.level + 1
          && r.player.value.body.rect.CenterX() == LevelStartX
          && r.player.value.body.rect.CenterY() == StartY
          && r.player.value.body == w.player.value.body.(rect := r.player.value.body.rect)
          && r.player.value.body.rect.w == box.w && r.player.value.body.rect.h == box.h
          && |r.enemies| == EnemyCount(w.level + 1) && |r.gems| == GemCount
          && r.showExitHint == w.showExitHint)
    && (!advance ==>
          && r.level == w.level && r.enemies == w.enemies
          && r.gems == Collect(w.gems, box)
          && r.player.value.body == w.player.value.body
          && r.showExitHint == (w.showExitHint || exit))
    && r.musicOn == w.musicOn && r.assets == w.assets
  }

  // The tick and the menu

  /** Every enemy takes its turn, in list order, seeing the player's box. */
  function MoveAll(enemies: seq<Enemy>, inputs: seq<EnemyInput>, player: Rect): (r: seq<Enemy>)
    requires |inputs| == |enemies| && AllValid(inputs)
    ensures |r| == |enemies|
    ensures forall i :: 0 <= i < |r| ==> r[i] == MoveAI(enemies[i], inputs[i], player)
  {
    seq(|enemies|, i requires 0 <= i < |enemies| => MoveAI(enemies[i], inputs[i], player))
  }

  /** One update tick. Playing: the player moves, then each enemy, then
      collisions are resolved. Game over or instructions: escape returns to
      the menu. In the menu a tick does nothing. */
  function Update(w: World, keys: Keys, inputs: seq<EnemyInput>, draws: SpawnDraws): (r: Result<World>)
    requires Valid(w)
    requires |inputs| == |w.enemies| && AllValid(inputs)
    requires ValidSpawn(draws, w.level + 1, LevelStartX, StartY)
    ensures r.Fail? ==> w.mode == Playing && r.stop.MissingSprites?
    ensures r.Fail? <==>
      && w.mode == Playing
      && ExitOpen(w.gems, Move(w.player.value, keys).body.rect)
      && SpawnFails(w.assets, w.level + 1, draws)
    ensures w.mode == Playing && r.Ok? ==>
      var p := Move(w.player.value, keys);
      CollisionOutcome(w.(player := Some(p), enemies := MoveAll(w.enemies, inputs, p.body.rect)), r.value)
    ensures (w.mode == GameOver || w.mode == Instructions) ==>
      r == Ok(if keys.escape then w.(mode := Menu) else w)
    ensures w.mode == Menu ==> r == Ok(w)
  {
    match w.mode
    case Playing =>
      var p := Move(w.player.value, keys);
      CheckCollisions(w.(player := Some(p), enemies := MoveAll(w.enemies, inputs, p.body.rect)), draws)
    case GameOver => Ok(if keys.escape then w.(mode := Menu) else w)
    case Instructions => Ok(if keys.escape then w.(mode := Menu) else w)
    case Menu => Ok(w)
  }

  /** A click in the menu: start a run, toggle the music, show the
      instructions or quit. Clicks elsewhere, or in any other mode, do nothing. */
  function OnMouseDown(w: World, click: Option<Button>, draws: SpawnDraws): (r: Result<World>)
    requires ValidSpawn(draws, 1, StartX, StartY)
    ensures w.mode != Menu || click.None? ==> r == Ok(w)
    ensures w.mode == Menu && click == Some(StartButton) ==> r == ResetGame(w, draws)
    ensures w.mode == Menu && click == Some(MusicButton) ==> r == Ok(w.(musicOn := !w.musicOn))
    ensures w.mode == Menu && click == Some(InstructionsButton) ==> r == Ok(w.(mode := Instructions))
    ensures w.mode == Menu && click == Some(QuitButton) ==> r == Fail(Exit)
  {
    if w.mode != Menu then Ok(w)
    else
      match click
      case None => Ok(w)
      case Some(StartButton) => ResetGame(w, draws)
      case Some(MusicButton) => Ok(w.(musicOn := !w.musicOn))
      case Some(InstructionsButton) => Ok(w.(mode := Instructions))
      case Some(QuitButton) => Fail(Exit)
  }

  // Session properties

  /** The mode changes the game allows: menu to playing (start) or to the
      instructions, playing to game over, game over or instructions back to
      the menu, and staying put. */
  predicate Allowed(from: Mode, to: Mode) {
    || from == to
    || (from == Menu && (to == Playing || to == Instructions))
    || (from == Playing && to == GameOver)
    || ((from == GameOver || from == Instructions) && to == Menu)
  }

  /** Ticks and clicks only take allowed mode changes, keep the session
      valid, never lower the high score, and only ever write the new high
      score to the score file. */
  lemma {:induction false} UpdateKeepsSession(w: World, keys: Keys, inputs: seq<EnemyInput>, draws: SpawnDraws)
    requires Valid(w)
    requires |inputs| == |w.enemies| && AllValid(inputs)
    requires ValidSpawn(draws, w.level + 1, LevelStartX, StartY)
    ensures var r := Update(w, keys, inputs, draws);
      r.Ok? ==>
        && Allowed(w.mode, r.value.mode)
        && Valid(r.value)
        && r.value.highScore >= w.highScore
        && (r.value.stored != w.stored ==> r.value.stored == Some(r.value.highScore))
  {
  }

  lemma {:induction false} ClickKeepsSession(w: World, click: Option<Button>, draws: SpawnDraws)
    requires Valid(w)
    requires ValidSpawn(draws, 1, StartX, StartY)
    ensures var r := OnMouseDown(w, click, draws);
      r.Ok? ==>
        && Allowed(w.mode, r.value.mode)
        && Valid(r.value)
        && r.value.highScore == w.highScore
        && r.value.stored == w.stored
  {
  }

  /** Escape is the only way out of the game-over and instructions screens. */
  lemma EscapeReturnsToMenu(w: World, keys: Keys, inputs: seq<EnemyInput>, draws: SpawnDraws)
    requires Valid(w) && (w.mode == GameOver || w.mode == Instructions)
    requires |inputs| == |w.enemies| && AllValid(inputs)
    requires ValidSpawn(draws, w.level + 1, LevelStartX, StartY)
    ensures var r := Update(w, keys, inputs, draws);
      r.Ok? && (r.value.mode == Menu <==> keys.escape) && (!keys.escape ==> r.value == w)
  {
  }

  /** On a tick where the player touches an enemy and also picks up gems,
      the high score is saved before the gems are counted: the saved score
      can end up below the final gem count of the run. */
  lemma SavedScoreIgnoresSameTickGems(w: World, draws: SpawnDraws)
    requires w.player.Some?
    requires ValidSpawn(draws, w.level + 1, LevelStartX, StartY)
    requires AnyHit(w.enemies, w.player.value.body.rect)
    requires Hits(w.gems, w.player.value.body.rect) > 0
    requires w.highScore == w.gemsCollected
    requires EnemySpritesReady(w.assets.enemySprites)
    ensures var r := CheckCollisions(w, draws);
      r.Ok? && r.value.mode == GameOver && r.value.highScore < r.value.gemsCollected
  {
    ReadySpawnSucceeds(w.assets, w.level + 1, draws);
  }

  /** The collision pass does not stop at a contact: on a tick where the
      player touches an enemy, picks up the last gems and stands in the exit
      strip, the run is over and the level still advances. */
  lemma GameOverTickCanStillAdvance(w: World, draws: SpawnDraws)
    requires w.player.Some?
    requires ValidSpawn(draws, w.level + 1, LevelStartX, StartY)
    requires AnyHit(w.enemies, w.player.value.body.rect)
    requires Overlaps(w.player.value.body.rect, ExitZone)
    requires Hits(w.gems, w.player.value.body.rect) == |w.gems|
    requires EnemySpritesReady(w.assets.enemySprites)
    ensures var r := CheckCollisions(w, draws);
      r.Ok? && r.value.mode == GameOver && r.value.level == w.level + 1
  {
    ReadySpawnSucceeds(w.assets, w.level + 1, draws);
  }

  /** After the exit-hint timer fires, the next collision pass shows the hint
      again exactly when the player is in the exit strip with gems left. */
  lemma HintReturnsOnlyInStrip(w: World, draws: SpawnDraws)
    requires w.player.Some?
    requires ValidSpawn(draws, w.level + 1, LevelStartX, StartY)
    ensures var box := w.player.value.body.rect;
      var r := CheckCollisions(HideExitMessage(w), draws);
      && (r.Fail? <==> ExitOpen(w.gems, box) && SpawnFails(w.assets, w.level + 1, draws))
      && (r.Ok? ==> (r.value.showExitHint <==> Overlaps(box, ExitZone) && Hits(w.gems, box) < |w.gems|))
  {
  }
}
